=== FILE: README.md ===
# Graph study guide traversals in Dafny

This project models the graph exercises of `Practice.java`: depth-first
traversals that carry a visited set, over two graph representations.

- **Vertex graphs.** A `Vertex<T>` holds `data` and an ordered list of
  `neighbors`, and vertices are compared by reference. The operations are
  `oddVertices`, `sumEvenVertices`, `countAbove`, `containsValue`,
  `collectValues`, `sortedReachable(Vertex)` and `twoWay`.
  `hasExtendedConnectionAtCompany` runs over the same shape: a
  `Professional` has a company name and a list of connections.
- **Map graphs.** A `Map<Integer, Set<Integer>>` maps a vertex id to the ids
  of its neighbours. The operations are `sortedReachable(Map, int)` and
  `positivePathExists`.

How the model is organised:

- **Arena.** Every vertex is an index into an arena,
  `Graph<T>(data, adj)`. Reference identity is index identity, and a
  reference that may be null is an `Option<nat>`.
- **Traversal.** Each Java helper is a recursive function that threads the
  visited set exactly as the Java code does. Wherever the Java loops over
  every neighbour, the function is paired with a second one for that loop.
  - The helpers of `oddVertices`, `sumEvenVertices` and `countAbove` differ
    only in the per-vertex contribution, so they share one pair,
    `VertexFolds.Tally`.
  - `hasExtendedConnectionAtCompany` and the corrected `containsValue`
    share the full search `VertexSearch.Seek`.
  - The helper of `containsValue` as written, `VertexSearch.ContainsFrom`,
    is a single function, because its loop returns after the first
    neighbour.
- **Engine.** There is one generic walk, `Traversal.Walk`, which is proved
  to visit exactly the vertices reachable from the start, each once
  (`Reachability.Reach`). Every pair is proved to run in lockstep with
  `Walk`, with two exceptions:
  - `SortedCollect` (`sortedReachable(Vertex)`) is related to `Collect`
    (`collectValues`) instead.
  - `ContainsFrom` is proved sound directly against `Reach`.
- **Contracts.** Every operation's contract is stated against that
  declarative reachable set. The iteration order of the neighbour `Set`s,
  which the caller supplies, is not fixed by the program, so the map-graph
  operations take it as a parameter `iter`. Their results are proved not
  to depend on it.

Modules:

| file | module | contents |
|---|---|---|
| seqs.dfy | `Seqs` | elements and duplicate-freedom of sequences |
| sorting.dfy | `Sorting` | sortedness, insertion sort as the reference for `Collections.sort`, and uniqueness of the sorted arrangement |
| folds.dfy | `Folds` | sums of per-vertex weights over sequences and sets |
| reachability.dfy | `Reachability` | paths, the reachable set, closed sets |
| traversal.dfy | `Traversal` | the generic depth-first walk and its coverage theorem |
| vertex_graph.dfy | `VertexGraph` | the arena graph, null references, neighbour relation |
| vertex_folds.dfy | `VertexFolds` | `oddVertices`, `sumEvenVertices`, `countAbove`, `collectValues`, `sortedReachable(Vertex)` |
| vertex_search.dfy | `VertexSearch` | `containsValue`, `hasExtendedConnectionAtCompany`, `twoWay` |
| map_graph.dfy | `MapGraph` | `sortedReachable(Map, int)`, `positivePathExists` |
| examples.dfy | `Examples` | the documented examples, a constructed map-graph example, and the inputs behind the findings |

## Model

| member | source | states |
|---|---|---|
| VertexFolds.OddVertices | src/Practice.java:10-53 | the result is the number of distinct vertices reachable from the start, the start included, whose datum is odd; it is 0 for a null start because nothing is reachable from null |
| VertexFolds.SumEvenVertices | src/Practice.java:55-79 | the result is the sum of the even data over the set of reachable vertices, so each vertex counts once however many paths lead to it |
| VertexFolds.CountAbove | src/Practice.java:81-105 | the result is the number of distinct reachable vertices whose datum is strictly greater than the threshold |
| VertexFolds.TallyOverReach | src/Practice.java:35-53 | the shared helper of the three integer traversals, called with a fresh visited set, yields the weight of the reachable set |
| VertexFolds.TallyWalks | src/Practice.java:61-79 | the helper adds the per-vertex contributions along the depth-first visiting order and leaves the same visited set as that walk |
| VertexFolds.CollectValues | src/Practice.java:129-150 | the list has one entry per reachable vertex and holds each value as often as reachable vertices hold it, so equal data on distinct vertices stay duplicated; the start's datum comes first; a null start gives the empty list |
| VertexFolds.CollectOverReach | src/Practice.java:134-150 | the helper, called with a fresh visited set, gives the reachable data with their multiplicities, the start's datum first |
| VertexFolds.CollectWalks | src/Practice.java:134-150 | the helper lists the data of the depth-first visiting order and leaves that walk's visited set |
| VertexFolds.SortedReachable | src/Practice.java:153-194 | the result is sorted and is a permutation of `collectValues` from the same start, so it is the sorted reachable data with duplicates kept; null gives the empty list |
| VertexFolds.SortedCollectPermutes | src/Practice.java:176-194 | sorting inside every recursive frame changes only the order: the helper holds the same multiset of data as `collectValues`' helper and leaves the same visited set |
| VertexSearch.ContainsValue | src/Practice.java:107-127 | false for a null start, true when the start holds the target, and a true answer means some reachable vertex holds the target |
| VertexSearch.ContainsFromSound | src/Practice.java:113-127 | whatever the first-neighbour chain finds is reachable from where the search started |
| VertexSearch.ContainsValueIntended | src/Practice.java:107-127 | the corrected search that tries every neighbour is true exactly when some reachable vertex holds the target |
| VertexSearch.Occurs | src/Practice.java:316-332 | a search that tries every neighbour with one shared visited set is true exactly when the start or a vertex reachable from it holds the target |
| VertexSearch.SeekWalks | src/Practice.java:316-332 | such a search succeeds exactly when the depth-first walk from the same visited set meets the target, and after a failure it has visited what that walk visits |
| VertexSearch.HasExtendedConnectionAtCompany | src/Practice.java:302-332 | true exactly when the person or someone reachable through connections works at the company; false for a null person |
| VertexSearch.FindWalks | src/Practice.java:249-265 | the `twoWay` helper succeeds exactly when the target is non-null and met by the depth-first walk from the same visited set, and a failure leaves that walk's visited set |
| VertexSearch.Search | src/Practice.java:249-265 | the `twoWay` helper with a fresh visited set is true exactly when both references are non-null and the target is reachable from the start |
| VertexSearch.TwoWay | src/Practice.java:229-265 | true exactly when both vertices are non-null and each is reachable from the other; true for the same non-null vertex twice |
| VertexSearch.TwoWaySymmetric | src/Practice.java:243-247 | swapping the two arguments does not change the answer, since each direction is searched with its own fresh visited set |
| MapGraph.SortedFromWalks | src/Practice.java:211-227 | the helper holds the same ids as the depth-first walk over the keys and leaves the same visited set |
| MapGraph.SortedReachable | src/Practice.java:196-227 | the result is strictly ascending and holds exactly the ids reachable from the start through keys, each once; empty when the start is not a key |
| MapGraph.SortedReachableIgnoresOrder | src/Practice.java:211-227 | any two iteration orders of the neighbour sets give the same list |
| MapGraph.PathSearchWalks | src/Practice.java:284-300 | for a valid ending, the helper succeeds exactly when the walk over the keys not below the bound meets the ending; after a failure it has visited what that walk visits |
| MapGraph.BoundedPathExists | src/Practice.java:279-300 | false when either end is below the bound or not a key; true for the same admissible id twice; otherwise true exactly when the ending is reachable through keys not below the bound |
| MapGraph.PositivePathExists | src/Practice.java:267-300 | as written, with bound 0: true exactly when the ending is reachable from the start through non-negative keys; false for a negative or missing end |
| MapGraph.PositivePathExistsIntended | src/Practice.java:267-278 | as documented: true exactly when the ending is reachable through positive keys; false when either end is not positive or missing |
| Traversal.WalkCoversReach | src/Practice.java:35-53 | a depth-first walk from a fresh visited set visits exactly the reachable vertices, each once; this is what makes every "reachable" contract above hold |
| Examples.OddExampleCount | src/Practice.java:15-26 | on the documented graph, starting from 5, three odd vertices are reached |
| Examples.SortedExampleResult | src/Practice.java:159-166 | on the documented graph, starting from 5, the answer is `[2, 5, 8, 8]` |
| Examples.MapExampleSorted | src/Practice.java:214 | in a constructed example, a neighbour id that is not a key is skipped: from 1 in `{1: {2}, 2: {-1, 3}, 3: {}}` the answer is `[1, 2, 3]` |
| Examples.ContainsValueMissesNine | src/Practice.java:121-124 | on the documented graph, with 4 listed before 8 among 5's neighbours, `containsValue(5, 9)` as written is false although 9 is reachable |
| Examples.ZeroPathAccepted | src/Practice.java:284 | as written, the path 1 -> 0 -> 2 is accepted; the documented search rejects it |

## Left out

- `nextMoves` (the board-walking exercise) is not part of this model.
- Null entries inside a neighbour or connection list cannot be represented: every list entry is a vertex. A null start is modelled. For most helpers a null entry returns the neutral value and contributes nothing. For `containsValue` it is different: a null first neighbour ends the search with false, at src/Practice.java:115 and 123.
- Null `Integer`s are not modelled; they are exception paths the model cannot represent. A null member of a map graph's neighbour set throws `NullPointerException` when unboxed at src/Practice.java:219 and 291. A null vertex datum throws when unboxed at lines 42, 68, 94 and 119, and inside `Collections.sort` at line 191. `collectValues` appends a null datum as it is, at line 142.
- Null containers and null strings cannot be represented either: an arena vertex always has a neighbour list, a map key always has a set, and a Dafny `string` is never null. Each of these is an unmodelled exception or comparison path.
  - A null `neighbors` list throws `NullPointerException` in the loop at src/Practice.java:47, 73, 99, 121, 144, 186 and 256. A null `getConnections()` throws at line 324.
  - A key bound to a null set throws at lines 219 and 291.
  - A null `graph` throws at line 214. At line 285 it throws only when both ids are non-negative; with a negative id the guard returns false before `graph` is used.
  - At line 322 a null `companyName` matches a professional whose `getCompany()` is null.
- `Vertex` and `Professional` are not part of this model beyond their fields `data`/`neighbors` and `getCompany()`/`getConnections()`.
- VertexSearch.ContainsValue: only soundness is stated, and nothing about a false answer. As written the search gives up after the first neighbour (see Findings). `VertexSearch.ContainsValueIntended` states the complete version.
- VertexFolds.SumEvenVertices: Java `int` addition wraps around at 32 bits, and the model adds unbounded integers. The contract holds whenever the true sum fits in an `int`.
- VertexSearch.HasExtendedConnectionAtCompany: Java compares the company strings with `==`, which is reference identity. The model compares string contents. The two agree when equal names are the same interned string, and otherwise the Java answer can be false where the model's is true.
- The iteration order of each neighbour `Set` is a parameter, since the caller chooses the `Set` type; every property is proved for all orders.
- `Collections.sort` is modelled by its specification: a sorted permutation, computed by insertion sort. Any sort gives the same list (`Sorting.SortedUnique`).
- Deep recursion (`StackOverflowError`) and `int` overflow of list sizes are not modelled.

## Findings

| source | as written | input that shows it | evidently intended | confidence | as-written member | corrected member |
|---|---|---|---|---|---|---|
| src/Practice.java:121-124 | the loop over the neighbours returns the first neighbour's result unconditionally, so later neighbours are never searched | the documented `oddVertices` graph with 5's neighbours listed as [4, 8], target 9: the search goes 5 -> 4 -> 7, stops, and answers false though 9 is reachable via 8 | return true only when a neighbour's search succeeds, and otherwise try the next neighbour | not executed | VertexSearch.ContainsValue (with Examples.ContainsValueMissesNine) | VertexSearch.ContainsValueIntended |
| src/Practice.java:284 | the guard rejects ids `< 0`, so vertex 0 is accepted | the map `{1: {0}, 0: {2}, 2: {}}` from 1 to 2: the only path passes through 0, and the method answers true | reject ids `<= 0`, so that only positive vertices lie on the path, as the documentation at lines 267-278 says | not executed | MapGraph.PositivePathExists (with Examples.ZeroPathAccepted) | MapGraph.PositivePathExistsIntended |

=== FILE: examples.dfy ===
/** The worked examples of the documentation, one constructed example of a
    map graph with a neighbour that is not a key, and the inputs behind the
    two discrepancies between documentation and code. Each fact is proved for
    any graph with the example's shape and then applied to the example
    itself. */
module Examples {
  import opened Seqs
  import opened Sorting
  import opened Reachability
  import opened VertexGraph
  import opened VertexFolds
  import opened VertexSearch
  import opened MapGraph

  /** The graph of the `oddVertices` example: 5 -> 4, 5 -> 8, 4 -> 7,
      8 -> 7, 8 -> 9, 1 -> 7, with the vertices numbered 0..5 in that order
      of data. */
  const OddExample: Graph<int> := Graph([5, 4, 8, 7, 9, 1], [[1, 2], [3], [3, 4], [], [], [3]])

  predicate OddShape(g: Graph<int>)
  {
    g.data == [5, 4, 8, 7, 9, 1] && g.adj == [[1, 2], [3], [3, 4], [], [], [3]]
  }

  /** From the vertex holding 5 everything but the vertex holding 1 is
      reachable. */
  lemma OddReach(g: Graph<int>)
    requires OddShape(g)
    ensures ReachFrom(g, Some(0)) == {0, 1, 2, 3, 4}
  {
    OddClosed(g);
    ClosedHoldsReach(Edges(g), {0, 1, 2, 3, 4}, 0);
    OddReachLeft(g);
    OddReachRight(g);
  }

  /** No edge leaves the vertices holding 5, 4, 8, 7 and 9. */
  lemma OddClosed(g: Graph<int>)
    requires OddShape(g)
    ensures |g.adj| == |g.data| && ClosedIn(Edges(g), {0, 1, 2, 3, 4}, {0, 1, 2, 3, 4})
  {
    ListsClosed(g, {0, 1, 2, 3, 4});
  }

  /** 5 -> 4 -> 7. */
  lemma OddReachLeft(g: Graph<int>)
    requires OddShape(g)
    ensures 0 in Reach(Edges(g), 0) && 1 in Reach(Edges(g), 0) && 3 in Reach(Edges(g), 0)
  {
    var E := Edges(g);
    ListedEdge(g, 0, 0);
    ListedEdge(g, 1, 0);
    ReachSelf(E, 0);
    ReachSelf(E, 1);
    ReachSelf(E, 3);
    ReachStep(E, 1, 3, 3);
    ReachStep(E, 0, 1, 1);
    ReachStep(E, 0, 1, 3);
  }

  /** 5 -> 8 -> 9. */
  lemma OddReachRight(g: Graph<int>)
    requires OddShape(g)
    ensures 2 in Reach(Edges(g), 0) && 4 in Reach(Edges(g), 0)
  {
    var E := Edges(g);
    ListedEdge(g, 0, 1);
    ListedEdge(g, 2, 1);
    ReachSelf(E, 2);
    ReachSelf(E, 4);
    ReachStep(E, 2, 4, 4);
    ReachStep(E, 0, 2, 2);
    ReachStep(E, 0, 2, 4);
  }

  /** Starting from 5 the odd data reached are 5, 7 and 9. */
  lemma OddExampleCount()
    ensures OddVertices(OddExample, Some(0)) == 3
  {
    OddCount3(OddExample);
  }

  lemma OddCount3(g: Graph<int>)
    requires OddShape(g)
    ensures OddVertices(g, Some(0)) == 3
  {
    assert Valid(g);
    OddReach(g);
    OddData(g, ReachFrom(g, Some(0)));
  }

  /** Of the vertices holding 5, 4, 8, 7 and 9, those holding 5, 7 and 9. */
  lemma OddData(g: Graph<int>, S: set<nat>)
    requires OddShape(g) && S == {0, 1, 2, 3, 4}
    ensures (set u | u in S && g.data[u] % 2 != 0) == {0, 3, 4}
    ensures |(set u | u in S && g.data[u] % 2 != 0)| == 3
  {
    var odd := set u | u in S && g.data[u] % 2 != 0;
    assert odd == {0, 3, 4};
  }

  /** `containsValue` as written misses the 9: it follows 5 -> 4 -> 7 and
      stops, never trying the second neighbour 8 of the start. */
  lemma ContainsValueMissesNine()
    ensures !ContainsValue(OddExample, Some(0), 9)
    ensures 4 in ReachFrom(OddExample, Some(0)) && OddExample.data[4] == 9
    ensures ContainsValueIntended(OddExample, Some(0), 9)
  {
    var g := OddExample;
    assert !ContainsFrom(g, 3, 9, {0, 1});
    assert !ContainsFrom(g, 1, 9, {0});
    assert !ContainsFrom(g, 0, 9, {});
    OddReach(g);
  }

  /** The graph of the `sortedReachable(Vertex)` example: 5 -> 8, 5 -> 8',
      8 -> 2, 8' -> 2, 4 -> 2, with two distinct vertices holding 8. */
  const SortedExample: Graph<int> := Graph([5, 8, 8, 2, 4], [[1, 2], [3], [3], [], [3]])

  predicate SortedShape(g: Graph<int>)
  {
    g.data == [5, 8, 8, 2, 4] && g.adj == [[1, 2], [3], [3], [], [3]]
  }

  /** From the vertex holding 5 everything but the vertex holding 4 is
      reachable. */
  lemma SortedReach(g: Graph<int>)
    requires SortedShape(g)
    ensures ReachFrom(g, Some(0)) == {0, 1, 2, 3}
  {
    SortedClosed(g);
    ClosedHoldsReach(Edges(g), {0, 1, 2, 3}, 0);
    var E := Edges(g);
    ListedEdge(g, 0, 0);
    ListedEdge(g, 0, 1);
    ListedEdge(g, 1, 0);
    ReachSelf(E, 0);
    ReachSelf(E, 1);
    ReachSelf(E, 2);
    ReachSelf(E, 3);
    ReachStep(E, 1, 3, 3);
    ReachStep(E, 0, 1, 1);
    ReachStep(E, 0, 1, 3);
    ReachStep(E, 0, 2, 2);
  }

  /** No edge leaves the vertices holding 5, 8, 8 and 2. */
  lemma SortedClosed(g: Graph<int>)
    requires SortedShape(g)
    ensures Valid(g) && ClosedIn(Edges(g), {0, 1, 2, 3}, {0, 1, 2, 3})
  {
    ListsClosed(g, {0, 1, 2, 3});
  }

  /** Starting from 5 the answer is `[2, 5, 8, 8]`: both 8s, sorted. */
  lemma SortedExampleResult()
    ensures VertexFolds.SortedReachable(SortedExample, Some(0)) == [2, 5, 8, 8]
  {
    SortedResult(SortedExample);
  }

  /** The multiset of reachable data fixes the list once it is sorted. */
  lemma SortedResult(g: Graph<int>)
    requires SortedShape(g)
    ensures VertexFolds.SortedReachable(g, Some(0)) == [2, 5, 8, 8]
  {
    var r := VertexFolds.SortedReachable(g, Some(0));
    forall x
      ensures multiset(r)[x] == multiset([2, 5, 8, 8])[x]
    {
      SortedMultiplicity(g, x);
    }
    SortedByMultiplicity(r);
  }

  lemma SortedMultiplicity(g: Graph<int>, x: int)
    requires SortedShape(g)
    ensures multiset(VertexFolds.SortedReachable(g, Some(0)))[x] == multiset([2, 5, 8, 8])[x]
  {
    assert Valid(g);
    SortedHolders(g, x);
    SortedWantCount(x);
  }

  /** How many reachable vertices hold each value. */
  lemma SortedHolders(g: Graph<int>, x: int)
    requires SortedShape(g)
    ensures |Holders(g, ReachFrom(g, Some(0)), x)|
         == if x == 2 || x == 5 then 1 else if x == 8 then 2 else 0
  {
    SortedReach(g);
    var H := Holders(g, ReachFrom(g, Some(0)), x);
    if x == 2 {
      assert H == {3};
    } else if x == 5 {
      assert H == {0};
    } else if x == 8 {
      assert H == {1, 2};
    } else {
      assert H == {};
    }
  }

  lemma SortedWantCount(x: int)
    ensures multiset([2, 5, 8, 8])[x] == if x == 2 || x == 5 then 1 else if x == 8 then 2 else 0
  {
  }

  /** A sorted list with the multiplicities of `[2, 5, 8, 8]` is that list. */
  lemma SortedByMultiplicity(r: seq<int>)
    requires Sorted(r)
    requires forall x :: multiset(r)[x] == multiset([2, 5, 8, 8])[x]
    ensures r == [2, 5, 8, 8]
  {
    var want := [2, 5, 8, 8];
    assert multiset(r) == multiset(want);
    SortedUnique(r, want);
  }

  /** A constructed map graph with a dangling neighbour -1 that is not a
      key. */
  const MapExample: map<int, set<int>> := map[1 := {2}, 2 := {-1, 3}, 3 := {}]
  const MapOrder: map<int, seq<int>> := map[1 := [2], 2 := [-1, 3], 3 := []]

  /** The id that is not a key is skipped: the answer is the three keys. */
  lemma MapExampleSorted()
    ensures IterationOrder(MapExample, MapOrder)
    ensures MapGraph.SortedReachable(MapExample, MapOrder, 1) == [1, 2, 3]
  {
    assert IterationOrder(MapExample, MapOrder);
    MapSorted(MapExample, MapOrder);
  }

  lemma MapSorted(m: map<int, set<int>>, iter: map<int, seq<int>>)
    requires m == map[1 := {2}, 2 := {-1, 3}, 3 := {}] && IterationOrder(m, iter)
    ensures MapGraph.SortedReachable(m, iter, 1) == [1, 2, 3]
  {
    MapElems(m, iter);
    AscendingOneTwoThree(MapGraph.SortedReachable(m, iter, 1));
  }

  /** The only strictly ascending list of 1, 2 and 3. */
  lemma AscendingOneTwoThree(r: seq<int>)
    requires StrictlyAscending(r) && Elems(r) == {1, 2, 3}
    ensures r == [1, 2, 3]
  {
    assert Elems([1, 2, 3]) == {1, 2, 3};
    AscendingUnique(r, [1, 2, 3]);
  }

  lemma MapElems(m: map<int, set<int>>, iter: map<int, seq<int>>)
    requires m == map[1 := {2}, 2 := {-1, 3}, 3 := {}] && IterationOrder(m, iter)
    ensures StrictlyAscending(MapGraph.SortedReachable(m, iter, 1))
    ensures Elems(MapGraph.SortedReachable(m, iter, 1)) == {1, 2, 3}
  {
    MapReach(m);
  }

  lemma MapReach(m: map<int, set<int>>)
    requires m == map[1 := {2}, 2 := {-1, 3}, 3 := {}]
    ensures Reach(m, 1) == {1, 2, 3}
  {
    ReachSelf(m, 1);
    ReachSelf(m, 2);
    ReachSelf(m, 3);
    ReachStep(m, 2, 3, 3);
    ReachStep(m, 1, 2, 2);
    ReachStep(m, 1, 2, 3);
    assert Reach(m, 1) <= m.Keys;
  }

  /** A path 1 -> 0 -> 2 through vertex 0. */
  const ZeroExample: map<int, set<int>> := map[1 := {0}, 0 := {2}, 2 := {}]
  const ZeroOrder: map<int, seq<int>> := map[1 := [0], 0 := [2], 2 := []]

  /** `positivePathExists` as written accepts the path through 0, which
      is not positive; the documented search rejects it. */
  lemma ZeroPathAccepted()
    ensures IterationOrder(ZeroExample, ZeroOrder)
    ensures PositivePathExists(ZeroExample, ZeroOrder, 1, 2)
    ensures !PositivePathExistsIntended(ZeroExample, ZeroOrder, 1, 2)
  {
    assert IterationOrder(ZeroExample, ZeroOrder);
    ZeroPath(ZeroExample, ZeroOrder);
  }

  lemma ZeroPath(m: map<int, set<int>>, iter: map<int, seq<int>>)
    requires m == map[1 := {0}, 0 := {2}, 2 := {}] && IterationOrder(m, iter)
    ensures PositivePathExists(m, iter, 1, 2)
    ensures !PositivePathExistsIntended(m, iter, 1, 2)
  {
    var n := KeysFrom(m, 0);
    assert n == m;
    ReachSelf(n, 2);
    ReachStep(n, 0, 2, 2);
    ReachStep(n, 1, 0, 2);
    var p := KeysFrom(m, 1);
    assert ClosedIn(p, {1}, {1});
    ClosedHoldsReach(p, {1}, 1);
  }
}

=== FILE: folds.dfy ===
/** Sums of per-vertex weights, taken either along a visiting order or over
    a set of vertices. A weight table `w` gives vertex `u` the weight `w[u]`;
    a vertex outside the table weighs nothing. */
module Folds {
  import opened Seqs

  function Weight(w: seq<int>, u: nat): int
  {
    if u < |w| then w[u] else 0
  }

  /** Sum of the weights along `o`, one term per occurrence. */
  function SeqSum(w: seq<int>, o: seq<nat>): int
  {
    if o == [] then 0 else Weight(w, o[0]) + SeqSum(w, o[1..])
  }

  /** Sum of the weights of the members of `S`, one term per member: the
      order-free reference for a traversal that adds up its visits. */
  ghost function SetSum(w: seq<int>, S: set<nat>): int
    decreases S
  {
    if S == {} then 0
    else
      var u :| u in S;
      Weight(w, u) + SetSum(w, S - {u})
  }

  lemma {:induction false} SeqSumConcat(w: seq<int>, a: seq<nat>, b: seq<nat>)
    ensures SeqSum(w, a + b) == SeqSum(w, a) + SeqSum(w, b)
  {
    if a != [] {
      assert (a + b)[0] == a[0];
      assert (a + b)[1..] == a[1..] + b;
      SeqSumConcat(w, a[1..], b);
    } else {
      assert a + b == b;
    }
  }

  /** `SetSum` may peel off any member first: its value does not depend on
      the order in which members are chosen. */
  lemma {:induction false} SetSumRemove(w: seq<int>, S: set<nat>, u: nat)
    requires u in S
    ensures SetSum(w, S) == Weight(w, u) + SetSum(w, S - {u})
    decreases S
  {
    var v :| v in S && SetSum(w, S) == Weight(w, v) + SetSum(w, S - {v});
    if v != u {
      SetSumRemove(w, S - {v}, u);
      SetSumRemove(w, S - {u}, v);
      assert S - {v} - {u} == S - {u} - {v};
    }
  }

  /** Summing along a duplicate-free order is summing over its set: every
      member contributes exactly once, whatever the order. */
  lemma {:induction false} SeqSumDistinct(w: seq<int>, o: seq<nat>)
    requires Distinct(o)
    ensures SeqSum(w, o) == SetSum(w, Elems(o))
  {
    if o != [] {
      DistinctTail(o);
      SeqSumDistinct(w, o[1..]);
      ElemsCons(o);
      assert o[0] !in Elems(o[1..]);
      assert Elems(o) - {o[0]} == Elems(o[1..]);
      SetSumRemove(w, Elems(o), o[0]);
    }
  }

  /** With weights that are 0 or 1, a set sum counts the members of weight 1. */
  lemma {:induction false} SetSumCounts(w: seq<int>, S: set<nat>)
    requires forall u :: u in S ==> Weight(w, u) == 0 || Weight(w, u) == 1
    ensures SetSum(w, S) == |set u | u in S && Weight(w, u) == 1|
    decreases S
  {
    if S != {} {
      var u :| u in S;
      SetSumRemove(w, S, u);
      SetSumCounts(w, S - {u});
      var ones := set x | x in S && Weight(w, x) == 1;
      var rest := set x | x in S - {u} && Weight(w, x) == 1;
      if Weight(w, u) == 1 {
        assert ones == rest + {u};
      } else {
        assert ones == rest;
      }
    }
  }
}

=== FILE: map_graph.dfy ===
/** The map graph: `Map<Integer, Set<Integer>>` from a vertex id to the ids
    of its neighbours. Only keys are vertices; a neighbour id that is not a
    key is skipped and never expanded. The data of a vertex is its id.

    A Java `Set` is iterated in an order the program does not choose. The
    model makes that order an explicit parameter `iter`: the traversal meets
    the members of `m[k]` in the order `iter[k]`. Every property below holds
    for every such order, so no result depends on it. */
module MapGraph {
  import opened Seqs
  import opened Sorting
  import opened Reachability
  import opened Traversal

  /** `iter[k]` lists exactly the members of the neighbour set `m[k]`. */
  ghost predicate IterationOrder(m: map<int, set<int>>, iter: map<int, seq<int>>)
  {
    forall k :: k in m ==> k in iter && Elems(iter[k]) == m[k]
  }

  /** The graph as the traversal engine sees it. */
  function Listing(m: map<int, set<int>>, iter: map<int, seq<int>>): (d: Digraph<int>)
    requires forall k :: k in m ==> k in iter
    ensures d.succ.Keys == m.Keys
    ensures forall k :: k in d.succ ==> d.succ[k] == iter[k]
  {
    Digraph(map k | k in m :: iter[k])
  }

  lemma ListingAdjacency(m: map<int, set<int>>, iter: map<int, seq<int>>)
    requires IterationOrder(m, iter)
    ensures Adjacency(Listing(m, iter)) == m
  {
    var a := Adjacency(Listing(m, iter));
    assert a.Keys == m.Keys;
    forall k | k in m
      ensures a[k] == m[k]
    {
      assert Listing(m, iter).succ[k] == iter[k];
    }
  }

  /** The part of the graph a path search with lower bound `floor` may walk
      through: the keys that are not below `floor`. */
  function KeysFrom(m: map<int, set<int>>, floor: int): (n: map<int, set<int>>)
    ensures forall k :: k in n <==> k in m && k >= floor
    ensures forall k :: k in n ==> n[k] == m[k]
  {
    map k | k in m && k >= floor :: m[k]
  }

  /** The helper of `sortedReachable(Map, int)`: nothing for a missing or
      visited id; otherwise the id itself and the lists of its neighbours,
      sorted before returning. */
  function SortedFrom(m: map<int, set<int>>, iter: map<int, seq<int>>, x: int, V: set<int>): (r: (seq<int>, set<int>))
    requires IterationOrder(m, iter)
    ensures V <= r.1
    ensures Sorted(r.0)
    decreases m.Keys - V, 0
  {
    if x !in m || x in V then ([], V)
    else
      var rest := SortedFromAll(m, iter, x, 0, V + {x});
      (Sort([x] + rest.0), rest.1)
  }

  function SortedFromAll(m: map<int, set<int>>, iter: map<int, seq<int>>, x: int, i: nat, V: set<int>): (r: (seq<int>, set<int>))
    requires IterationOrder(m, iter) && x in m && i <= |iter[x]|
    ensures V <= r.1
    decreases m.Keys - V, |iter[x]| - i + 1
  {
    if i == |iter[x]| then ([], V)
    else
      var first := SortedFrom(m, iter, iter[x][i], V);
      var rest := SortedFromAll(m, iter, x, i + 1, first.1);
      (first.0 + rest.0, rest.1)
  }

  /** Sorting at every frame changes only the order: `SortedFrom` lists the
      engine's visiting order and leaves the same visited set. */
  lemma {:induction false} SortedFromWalks(m: map<int, set<int>>, iter: map<int, seq<int>>, x: int, V: set<int>)
    requires IterationOrder(m, iter)
    ensures multiset(SortedFrom(m, iter, x, V).0) == multiset(Walk(Listing(m, iter), x, V).0)
    ensures SortedFrom(m, iter, x, V).1 == Walk(Listing(m, iter), x, V).1
    decreases m.Keys - V, 0
  {
    if x in m && x !in V {
      SortedFromAllWalks(m, iter, x, 0, V + {x});
    }
  }

  lemma {:induction false} SortedFromAllWalks(m: map<int, set<int>>, iter: map<int, seq<int>>, x: int, i: nat, V: set<int>)
    requires IterationOrder(m, iter) && x in m && i <= |iter[x]|
    ensures multiset(SortedFromAll(m, iter, x, i, V).0) == multiset(WalkFrom(Listing(m, iter), x, i, V).0)
    ensures SortedFromAll(m, iter, x, i, V).1 == WalkFrom(Listing(m, iter), x, i, V).1
    decreases m.Keys - V, |iter[x]| - i + 1
  {
    if i < |iter[x]| {
      var y := iter[x][i];
      SortedFromWalks(m, iter, y, V);
      var V1 := Walk(Listing(m, iter), y, V).1;
      SortedFromAllWalks(m, iter, x, i + 1, V1);
    }
  }

  /** `sortedReachable(Map, int)`: the ids reachable from `starting` through
      keys, each once, in strictly ascending order; empty when `starting` is
      not a key. */
  function SortedReachable(m: map<int, set<int>>, iter: map<int, seq<int>>, starting: int): (r: seq<int>)
    requires IterationOrder(m, iter)
    ensures starting !in m ==> r == []
    ensures StrictlyAscending(r)
    ensures Elems(r) == Reach(m, starting)
  {
    var r := SortedFrom(m, iter, starting, {}).0;
    var o := Walk(Listing(m, iter), starting, {}).0;
    SortedFromWalks(m, iter, starting, {});
    DistinctByMultiset(r, o);
    SortedDistinctAscends(r);
    assert Elems(r) == Elems(o) by {
      assert forall x :: x in r <==> x in multiset(r);
      assert forall x :: x in o <==> x in multiset(o);
    }
    WalkCoversReach(Listing(m, iter), starting);
    ListingAdjacency(m, iter);
    r
  }

  /** Whatever order the neighbour sets are iterated in, the answer of
      `sortedReachable(Map, int)` is the same. */
  lemma SortedReachableIgnoresOrder(m: map<int, set<int>>, iter1: map<int, seq<int>>, iter2: map<int, seq<int>>, starting: int)
    requires IterationOrder(m, iter1) && IterationOrder(m, iter2)
    ensures SortedReachable(m, iter1, starting) == SortedReachable(m, iter2, starting)
  {
    AscendingUnique(SortedReachable(m, iter1, starting), SortedReachable(m, iter2, starting));
  }

  /** The helper of `positivePathExists`, with the bound of its guard made a
      parameter (the source's guard is `< 0`, i.e. `floor == 0`): fails at
      once on an id below `floor` or missing (current or ending) or a visited
      one; otherwise marks the id, succeeds if it is the ending, and tries the
      neighbours in turn with one shared visited set. */
  function PathSearch(m: map<int, set<int>>, iter: map<int, seq<int>>, floor: int, x: int, ending: int, V: set<int>): (r: (bool, set<int>))
    requires IterationOrder(m, iter)
    ensures V <= r.1
    decreases m.Keys - V, 0
  {
    if x < floor || ending < floor || x !in m || ending !in m || x in V then (false, V)
    else if x == ending then (true, V + {x})
    else PathSearchFrom(m, iter, floor, x, 0, ending, V + {x})
  }

  function PathSearchFrom(m: map<int, set<int>>, iter: map<int, seq<int>>, floor: int, x: int, i: nat, ending: int, V: set<int>): (r: (bool, set<int>))
    requires IterationOrder(m, iter) && x in m && i <= |iter[x]|
    ensures V <= r.1
    decreases m.Keys - V, |iter[x]| - i + 1
  {
    if i == |iter[x]| then (false, V)
    else
      var first := PathSearch(m, iter, floor, iter[x][i], ending, V);
      if first.0 then (true, first.1) else PathSearchFrom(m, iter, floor, x, i + 1, ending, first.1)
  }

  /** For a valid ending, `PathSearch` succeeds iff the engine's walk over the
      keys not below `floor` meets the ending; when it fails it has visited
      what that walk visits, so the shared visited set loses no path. */
  lemma {:induction false} PathSearchWalks(m: map<int, set<int>>, iter: map<int, seq<int>>, floor: int, x: int, ending: int, V: set<int>)
    requires IterationOrder(m, iter) && ending >= floor && ending in m
    ensures PathSearch(m, iter, floor, x, ending, V).0
         == (ending in Elems(Walk(Listing(KeysFrom(m, floor), iter), x, V).0))
    ensures !PathSearch(m, iter, floor, x, ending, V).0
         ==> PathSearch(m, iter, floor, x, ending, V).1 == Walk(Listing(KeysFrom(m, floor), iter), x, V).1
    decreases m.Keys - V, 0
  {
    if x >= floor && x in m && x !in V {
      var o := WalkFrom(Listing(KeysFrom(m, floor), iter), x, 0, V + {x}).0;
      ElemsConcat([x], o);
      if x != ending {
        PathSearchFromWalks(m, iter, floor, x, 0, ending, V + {x});
      }
    }
  }

  lemma {:induction false} PathSearchFromWalks(m: map<int, set<int>>, iter: map<int, seq<int>>, floor: int, x: int, i: nat, ending: int, V: set<int>)
    requires IterationOrder(m, iter) && ending >= floor && ending in m
    requires x >= floor && x in m && i <= |iter[x]|
    ensures PathSearchFrom(m, iter, floor, x, i, ending, V).0
         == (ending in Elems(WalkFrom(Listing(KeysFrom(m, floor), iter), x, i, V).0))
    ensures !PathSearchFrom(m, iter, floor, x, i, ending, V).0
         ==> PathSearchFrom(m, iter, floor, x, i, ending, V).1 == WalkFrom(Listing(KeysFrom(m, floor), iter), x, i, V).1
    decreases m.Keys - V, |iter[x]| - i + 1
  {
    if i < |iter[x]| {
      var P := Listing(KeysFrom(m, floor), iter);
      var y := iter[x][i];
      PathSearchWalks(m, iter, floor, y, ending, V);
      var walk := Walk(P, y, V);
      var walkRest := WalkFrom(P, x, i + 1, walk.1);
      assert WalkFrom(P, x, i, V).0 == walk.0 + walkRest.0;
      ElemsConcat(walk.0, walkRest.0);
      if !PathSearch(m, iter, floor, y, ending, V).0 {
        PathSearchFromWalks(m, iter, floor, x, i + 1, ending, walk.1);
      }
    }
  }

  /** A search from a fresh visited set: true iff `ending` can be reached from
      `starting` along a path whose every vertex is a key not below `floor`.
      False when either end is below `floor` or missing; true when both ends
      are the same admissible id. */
  function BoundedPathExists(m: map<int, set<int>>, iter: map<int, seq<int>>, floor: int, starting: int, ending: int): (r: bool)
    requires IterationOrder(m, iter)
    ensures starting < floor || ending < floor || starting !in m || ending !in m ==> !r
    ensures starting == ending && starting >= floor && starting in m ==> r
    ensures r <==> ending in Reach(KeysFrom(m, floor), starting)
  {
    var r := PathSearch(m, iter, floor, starting, ending, {}).0;
    var n := KeysFrom(m, floor);
    assert IterationOrder(n, iter);
    ListingAdjacency(n, iter);
    WalkCoversReach(Listing(n, iter), starting);
    assert r <==> ending in Reach(n, starting) by {
      if ending >= floor && ending in m {
        PathSearchWalks(m, iter, floor, starting, ending, {});
      }
    }
    assert starting == ending && starting in n ==> r by {
      if starting in n {
        ReachSelf(n, starting);
      }
    }
    r
  }

  /** `positivePathExists`, as written: the guard rejects only ids below zero,
      so a path may start at, end at or pass through vertex 0. True iff
      `ending` can be reached from `starting` through non-negative keys. */
  function PositivePathExists(m: map<int, set<int>>, iter: map<int, seq<int>>, starting: int, ending: int): (r: bool)
    requires IterationOrder(m, iter)
    ensures starting < 0 || ending < 0 || starting !in m || ending !in m ==> !r
    ensures starting == ending && starting >= 0 && starting in m ==> r
    ensures r <==> ending in Reach(KeysFrom(m, 0), starting)
  {
    BoundedPathExists(m, iter, 0, starting, ending)
  }

  /** `positivePathExists` as its documentation states it: only positive ids,
      so a path through vertex 0 does not count. */
  function PositivePathExistsIntended(m: map<int, set<int>>, iter: map<int, seq<int>>, starting: int, ending: int): (r: bool)
    requires IterationOrder(m, iter)
    ensures starting <= 0 || ending <= 0 || starting !in m || ending !in m ==> !r
    ensures starting == ending && starting > 0 && starting in m ==> r
    ensures r <==> ending in Reach(KeysFrom(m, 1), starting)
  {
    BoundedPathExists(m, iter, 1, starting, ending)
  }
}

=== FILE: reachability.dfy ===
/** Declarative reachability over an adjacency relation `a`: `a[x]` is the
    set of ids listed as neighbours of vertex `x`. Only keys of `a` are
    vertices; a neighbour id that is not a key is absent (a null reference,
    an id missing from the map) and is neither visited nor expanded. */
module Reachability {

  ghost predicate Edge<Id(!new)>(a: map<Id, set<Id>>, x: Id, y: Id)
  {
    x in a && y in a && y in a[x]
  }

  /** A non-empty walk through vertices of `a` along edges. */
  ghost predicate IsPath<Id(!new)>(a: map<Id, set<Id>>, p: seq<Id>)
    decreases |p|
  {
    |p| > 0 && p[0] in a && (|p| == 1 || (Edge(a, p[0], p[1]) && IsPath(a, p[1..])))
  }

  ghost predicate Reachable<Id(!new)>(a: map<Id, set<Id>>, s: Id, t: Id)
  {
    exists p :: IsPath(a, p) && p[0] == s && p[|p| - 1] == t
  }

  /** Every vertex reachable from `s` in zero or more steps; empty when `s` is
      not a vertex. */
  ghost function Reach<Id(!new)>(a: map<Id, set<Id>>, s: Id): set<Id>
  {
    set t | t in a.Keys && Reachable(a, s, t)
  }

  /** Every vertex of `S` has all its successors in `T`. */
  ghost predicate ClosedIn<Id(!new)>(a: map<Id, set<Id>>, S: set<Id>, T: set<Id>)
  {
    forall u, y :: u in S && Edge(a, u, y) ==> y in T
  }

  lemma ReachSelf<Id(!new)>(a: map<Id, set<Id>>, s: Id)
    requires s in a
    ensures s in Reach(a, s)
  {
    assert IsPath(a, [s]);
  }

  /** Nothing is reachable from an absent vertex. */
  lemma ReachOfAbsent<Id(!new)>(a: map<Id, set<Id>>, s: Id)
    requires s !in a
    ensures Reach(a, s) == {}
  {
    assert forall p :: IsPath(a, p) ==> p[0] in a;
  }

  /** One edge followed by a path is a path. */
  lemma ReachStep<Id(!new)>(a: map<Id, set<Id>>, x: Id, y: Id, t: Id)
    requires Edge(a, x, y) && t in Reach(a, y)
    ensures t in Reach(a, x)
  {
    var p :| IsPath(a, p) && p[0] == y && p[|p| - 1] == t;
    var q := [x] + p;
    assert q[1..] == p;
    assert IsPath(a, q);
  }

  /** A set that contains `p[0]` and is closed under edges contains the
      whole path. */
  lemma {:induction false} ClosedHoldsPath<Id(!new)>(a: map<Id, set<Id>>, S: set<Id>, p: seq<Id>)
    requires IsPath(a, p) && p[0] in S && ClosedIn(a, S, S)
    ensures p[|p| - 1] in S
    decreases |p|
  {
    if |p| > 1 {
      assert Edge(a, p[0], p[1]);
      ClosedHoldsPath(a, S, p[1..]);
    }
  }

  /** The reachable set is the least edge-closed set holding the start. */
  lemma ClosedHoldsReach<Id(!new)>(a: map<Id, set<Id>>, S: set<Id>, s: Id)
    requires s in S && ClosedIn(a, S, S)
    ensures Reach(a, s) <= S
  {
    forall t | t in Reach(a, s)
      ensures t in S
    {
      var p :| IsPath(a, p) && p[0] == s && p[|p| - 1] == t;
      ClosedHoldsPath(a, S, p);
    }
  }
}

=== FILE: seqs.dfy ===
/** Small facts about sequences used by every traversal: the set of elements
    of a sequence and duplicate-freedom. */
module Seqs {

  /** The elements of `s`, forgetting order and multiplicity. */
  function Elems<T(==)>(s: seq<T>): set<T>
  {
    set x | x in s
  }

  /** No element occurs twice in `s`. */
  predicate Distinct<T(==)>(s: seq<T>)
  {
    forall i, j :: 0 <= i < j < |s| ==> s[i] != s[j]
  }

  lemma ElemsConcat<T>(a: seq<T>, b: seq<T>)
    ensures Elems(a + b) == Elems(a) + Elems(b)
  {
    forall x | x in Elems(a + b)
      ensures x in Elems(a) + Elems(b)
    {
      var k :| 0 <= k < |a + b| && (a + b)[k] == x;
      if k < |a| {
        assert a[k] == x;
      } else {
        assert b[k - |a|] == x;
      }
    }
  }

  /** Gluing two duplicate-free sequences with no common element gives a
      duplicate-free sequence. */
  lemma DistinctConcat<T>(a: seq<T>, b: seq<T>)
    requires Distinct(a) && Distinct(b) && Elems(a) !! Elems(b)
    ensures Distinct(a + b)
  {
    forall i, j | 0 <= i < j < |a + b|
      ensures (a + b)[i] != (a + b)[j]
    {
      if i < |a| && |a| <= j {
        assert (a + b)[i] in Elems(a);
        assert (a + b)[j] == b[j - |a|];
        assert (a + b)[j] in Elems(b);
      }
    }
  }

  /** A duplicate-free sequence has exactly as many elements as its set. */
  lemma {:induction false} DistinctCard<T>(s: seq<T>)
    requires Distinct(s)
    ensures |Elems(s)| == |s|
  {
    if s != [] {
      DistinctTail(s);
      DistinctCard(s[1..]);
      ElemsCons(s);
    }
  }

  lemma DistinctTail<T>(s: seq<T>)
    requires Distinct(s) && s != []
    ensures Distinct(s[1..])
  {
    forall i, j | 0 <= i < j < |s[1..]|
      ensures s[1..][i] != s[1..][j]
    {
      assert s[1..][i] == s[i + 1] && s[1..][j] == s[j + 1];
    }
  }

  lemma ElemsCons<T>(s: seq<T>)
    requires s != []
    ensures Elems(s) == {s[0]} + Elems(s[1..])
  {
    assert s == [s[0]] + s[1..];
    ElemsConcat([s[0]], s[1..]);
  }

  /** Every element of a duplicate-free sequence occurs in it exactly once. */
  lemma {:induction false} DistinctMultiplicity<T>(s: seq<T>, x: T)
    requires Distinct(s)
    ensures multiset(s)[x] == if x in s then 1 else 0
  {
    if s != [] {
      DistinctTail(s);
      DistinctMultiplicity(s[1..], x);
      assert s == [s[0]] + s[1..];
      assert multiset(s) == multiset{s[0]} + multiset(s[1..]);
      assert s[0] !in s[1..];
    }
  }

  /** A sequence with the same elements, counted with multiplicity, as a
      duplicate-free one is duplicate-free itself. */
  lemma DistinctByMultiset<T>(a: seq<T>, b: seq<T>)
    requires Distinct(b) && multiset(a) == multiset(b)
    ensures Distinct(a)
  {
    forall i, j | 0 <= i < j < |a|
      ensures a[i] != a[j]
    {
      if a[i] == a[j] {
        assert a == a[..i] + [a[i]] + a[i + 1..j] + [a[j]] + a[j + 1..];
        assert multiset(a)[a[i]] >= 2;
        DistinctMultiplicity(b, a[i]);
        assert false;
      }
    }
  }

  /** The head of a duplicate-free sequence does not recur in its tail. */
  lemma DistinctHead<T>(s: seq<T>)
    requires s != [] && Distinct(s)
    ensures s[0] !in Elems(s[1..])
  {
    forall k | 0 <= k < |s[1..]|
      ensures s[1..][k] != s[0]
    {
      assert s[1..][k] == s[k + 1];
    }
  }
}

=== FILE: sorting.dfy ===
/** Ascending integer sequences and the sort the traversals apply at each
    return frame. Only the observable result of `Collections.sort` on a list
    of integers matters: the unique ascending permutation of its input. */
module Sorting {
  import opened Seqs

  /** Non-decreasing. */
  predicate Sorted(s: seq<int>)
  {
    forall i, j :: 0 <= i < j < |s| ==> s[i] <= s[j]
  }

  /** Strictly increasing: sorted and without repetitions. */
  predicate StrictlyAscending(s: seq<int>)
  {
    forall i, j :: 0 <= i < j < |s| ==> s[i] < s[j]
  }

  /** Inserts `x` into a sorted sequence at its place. */
  function Insert(x: int, s: seq<int>): (r: seq<int>)
    requires Sorted(s)
    ensures Sorted(r)
    ensures multiset(r) == multiset(s) + multiset{x}
  {
    if s == [] then [x]
    else if x <= s[0] then [x] + s
    else
      var t := Insert(x, s[1..]);
      assert s == [s[0]] + s[1..];
      assert forall k :: 0 <= k < |t| ==> s[0] <= t[k] by {
        forall k | 0 <= k < |t|
          ensures s[0] <= t[k]
        {
          assert t[k] in multiset(s[1..]) + multiset{x};
          if t[k] != x {
            assert t[k] in s[1..];
          }
        }
      }
      SortedCons(s[0], t);
      [s[0]] + t
  }

  /** A head no greater than any element of a sorted tail keeps it sorted. */
  lemma SortedCons(h: int, t: seq<int>)
    requires Sorted(t) && forall k :: 0 <= k < |t| ==> h <= t[k]
    ensures Sorted([h] + t)
  {
    var s := [h] + t;
    forall i, j | 0 <= i < j < |s|
      ensures s[i] <= s[j]
    {
      assert s[j] == t[j - 1];
      if i > 0 {
        assert s[i] == t[i - 1];
      }
    }
  }

  /** The ascending permutation of `s` (insertion sort). */
  function Sort(s: seq<int>): (r: seq<int>)
    ensures Sorted(r)
    ensures multiset(r) == multiset(s)
  {
    if s == [] then []
    else
      assert s == [s[0]] + s[1..];
      Insert(s[0], Sort(s[1..]))
  }

  /** There is only one ascending arrangement of a multiset of integers, so
      any sort yields the same list. */
  lemma {:induction false} SortedUnique(a: seq<int>, b: seq<int>)
    requires Sorted(a) && Sorted(b) && multiset(a) == multiset(b)
    ensures a == b
  {
    if a == [] {
      assert |multiset(b)| == 0;
    } else {
      assert b != [] by {
        assert a[0] in multiset(b);
      }
      SortedHeadLeast(a, b[0]);
      SortedHeadLeast(b, a[0]);
      SortedTail(a);
      SortedTail(b);
      assert a[0] == b[0];
      MultisetTail(a);
      MultisetTail(b);
      assert multiset(a[1..]) == multiset(b[1..]);
      SortedUnique(a[1..], b[1..]);
      assert a[1..] == b[1..];
      SeqHeadTail(a, b);
    }
  }

  lemma SeqHeadTail(a: seq<int>, b: seq<int>)
    requires a != [] && b != [] && a[0] == b[0] && a[1..] == b[1..]
    ensures a == b
  {
    assert a == [a[0]] + a[1..];
    assert b == [b[0]] + b[1..];
  }

  /** The head of a sorted sequence is its least element. */
  lemma SortedHeadLeast(s: seq<int>, x: int)
    requires Sorted(s) && x in multiset(s)
    ensures s[0] <= x
  {
    assert x in s;
  }

  lemma SortedTail(s: seq<int>)
    requires Sorted(s) && s != []
    ensures Sorted(s[1..])
  {
    forall i, j | 0 <= i < j < |s[1..]|
      ensures s[1..][i] <= s[1..][j]
    {
      assert s[1..][i] == s[i + 1] && s[1..][j] == s[j + 1];
    }
  }

  lemma MultisetTail(s: seq<int>)
    requires s != []
    ensures multiset(s[1..]) == multiset(s) - multiset{s[0]}
  {
    assert s == [s[0]] + s[1..];
  }

  /** A sorted sequence with no repetitions ascends strictly. */
  lemma SortedDistinctAscends(s: seq<int>)
    requires Sorted(s) && Distinct(s)
    ensures StrictlyAscending(s)
  {
  }

  /** A strictly ascending sequence is determined by its set of elements. */
  lemma {:induction false} AscendingUnique(a: seq<int>, b: seq<int>)
    requires StrictlyAscending(a) && StrictlyAscending(b) && Elems(a) == Elems(b)
    ensures a == b
  {
    if a == [] {
      assert forall k :: 0 <= k < |b| ==> b[k] in Elems(b);
    } else {
      assert a[0] in Elems(b);
      assert b != [];
      assert b[0] in Elems(a);
      assert a[0] == b[0];
      assert Elems(a[1..]) == Elems(a) - {a[0]} by {
        assert a == [a[0]] + a[1..];
      }
      assert Elems(b[1..]) == Elems(b) - {b[0]} by {
        assert b == [b[0]] + b[1..];
      }
      AscendingUnique(a[1..], b[1..]);
      assert a == [a[0]] + a[1..];
      assert b == [b[0]] + b[1..];
    }
  }
}

=== FILE: traversal.dfy ===
/** The traversal engine shared by every operation: a depth-first walk that
    marks a vertex visited before exploring its neighbours, skips absent and
    already-visited vertices, and threads the visited set through the
    neighbours in their iteration order. `Walk` returns the pre-order in which
    vertices are first visited together with the final visited set; each
    operation of the library is a fold of one per-vertex contribution along
    this order. */
module Traversal {
  import opened Seqs
  import opened Reachability

  /** A graph as the traversal sees it: each vertex id is a key, mapped to its
      neighbour ids in iteration order. An id that is not a key is absent. */
  datatype Digraph<Id> = Digraph(succ: map<Id, seq<Id>>)

  /** The adjacency relation of `d`, forgetting iteration order. */
  ghost function Adjacency<Id(!new)>(d: Digraph<Id>): map<Id, set<Id>>
  {
    map x | x in d.succ :: Elems(d.succ[x])
  }

  /** Visits `x` unless it is absent or in `V`, then its neighbours in order.
      Each vertex enters the order at most once and only if it was not
      visited before; the visited set grows by exactly the vertices in the
      order. */
  function Walk<Id(==)>(d: Digraph<Id>, x: Id, V: set<Id>): (r: (seq<Id>, set<Id>))
    ensures r.1 == V + Elems(r.0)
    ensures Distinct(r.0) && Elems(r.0) !! V
    ensures Elems(r.0) <= d.succ.Keys
    ensures forall k :: 0 <= k < |r.0| ==> r.0[k] in d.succ
    ensures x in d.succ ==> x in r.1
    decreases d.succ.Keys - V, 0
  {
    if x !in d.succ || x in V then ([], V)
    else
      var rest := WalkFrom(d, x, 0, V + {x});
      assert Elems([x] + rest.0) == {x} + Elems(rest.0) by { ElemsConcat([x], rest.0); }
      DistinctConcat([x], rest.0);
      ([x] + rest.0, rest.1)
  }

  /** Walks the neighbours `d.succ[x][i..]` one after another, each starting
      from the visited set the previous one left. */
  function WalkFrom<Id(==)>(d: Digraph<Id>, x: Id, i: nat, V: set<Id>): (r: (seq<Id>, set<Id>))
    requires x in d.succ && i <= |d.succ[x]|
    ensures r.1 == V + Elems(r.0)
    ensures Distinct(r.0) && Elems(r.0) !! V
    ensures Elems(r.0) <= d.succ.Keys
    ensures forall k :: 0 <= k < |r.0| ==> r.0[k] in d.succ
    ensures forall j :: i <= j < |d.succ[x]| && d.succ[x][j] in d.succ ==> d.succ[x][j] in r.1
    decreases d.succ.Keys - V, |d.succ[x]| - i + 1
  {
    if i == |d.succ[x]| then ([], V)
    else
      var first := Walk(d, d.succ[x][i], V);
      var rest := WalkFrom(d, x, i + 1, first.1);
      ElemsConcat(first.0, rest.0);
      DistinctConcat(first.0, rest.0);
      (first.0 + rest.0, rest.1)
  }

  /** Everything a walk visits is reachable from where it started. */
  lemma {:induction false} WalkSound<Id(!new)>(d: Digraph<Id>, x: Id, V: set<Id>)
    ensures Elems(Walk(d, x, V).0) <= Reach(Adjacency(d), x)
    decreases d.succ.Keys - V, 0
  {
    if x in d.succ && x !in V {
      var o := WalkFrom(d, x, 0, V + {x}).0;
      WalkFromSound(d, x, 0, V + {x});
      ReachSelf(Adjacency(d), x);
      ElemsConcat([x], o);
    }
  }

  lemma {:induction false} WalkFromSound<Id(!new)>(d: Digraph<Id>, x: Id, i: nat, V: set<Id>)
    requires x in d.succ && i <= |d.succ[x]|
    ensures Elems(WalkFrom(d, x, i, V).0) <= Reach(Adjacency(d), x)
    decreases d.succ.Keys - V, |d.succ[x]| - i + 1
  {
    if i < |d.succ[x]| {
      var y := d.succ[x][i];
      var first := Walk(d, y, V);
      var o1 := first.0;
      WalkSound(d, y, V);
      WalkFromSound(d, x, i + 1, first.1);
      ElemsConcat(o1, WalkFrom(d, x, i + 1, first.1).0);
      if o1 != [] {
        assert y in d.succ;
        assert Edge(Adjacency(d), x, y);
        forall t | t in Elems(o1)
          ensures t in Reach(Adjacency(d), x)
        {
          ReachStep(Adjacency(d), x, y, t);
        }
      }
    }
  }

  /** Every vertex a walk visits has all its neighbours visited by the time
      the walk returns. */
  lemma {:induction false} WalkClosed<Id(!new)>(d: Digraph<Id>, x: Id, V: set<Id>)
    ensures ClosedIn(Adjacency(d), Elems(Walk(d, x, V).0), Walk(d, x, V).1)
    decreases d.succ.Keys - V, 0
  {
    if x in d.succ && x !in V {
      var rest := WalkFrom(d, x, 0, V + {x});
      WalkFromClosed(d, x, 0, V + {x});
      ElemsConcat([x], rest.0);
      forall y | Edge(Adjacency(d), x, y)
        ensures y in rest.1
      {
        assert y in Elems(d.succ[x]);
        var j :| 0 <= j < |d.succ[x]| && d.succ[x][j] == y;
      }
    }
  }

  lemma {:induction false} WalkFromClosed<Id(!new)>(d: Digraph<Id>, x: Id, i: nat, V: set<Id>)
    requires x in d.succ && i <= |d.succ[x]|
    ensures ClosedIn(Adjacency(d), Elems(WalkFrom(d, x, i, V).0), WalkFrom(d, x, i, V).1)
    decreases d.succ.Keys - V, |d.succ[x]| - i + 1
  {
    if i < |d.succ[x]| {
      var y := d.succ[x][i];
      var first := Walk(d, y, V);
      WalkClosed(d, y, V);
      WalkFromClosed(d, x, i + 1, first.1);
      ElemsConcat(first.0, WalkFrom(d, x, i + 1, first.1).0);
    }
  }

  /** A walk from a fresh visited set visits exactly the vertices reachable
      from its start, each once. */
  lemma WalkCoversReach<Id(!new)>(d: Digraph<Id>, x: Id)
    ensures Elems(Walk(d, x, {}).0) == Reach(Adjacency(d), x)
    ensures Walk(d, x, {}).1 == Reach(Adjacency(d), x)
  {
    WalkSound(d, x, {});
    if x in d.succ {
      WalkClosed(d, x, {});
      ClosedHoldsReach(Adjacency(d), Walk(d, x, {}).1, x);
    } else {
      ReachOfAbsent(Adjacency(d), x);
    }
  }
}

=== FILE: vertex_folds.dfy ===
/** The counting, summing and collecting traversals of the vertex graph:
    `oddVertices`, `sumEvenVertices`, `countAbove`, `collectValues` and
    `sortedReachable(Vertex)`. Each one returns its neutral value for a null
    start or an already-visited vertex, marks the vertex, adds its own
    contribution and then the results of its neighbours in list order. The
    three integer folds differ only in the per-vertex contribution, so they
    share one traversal, `Tally`, parameterised by a weight table. */
module VertexFolds {
  import opened Seqs
  import opened Sorting
  import opened Folds
  import opened Traversal
  import opened VertexGraph

  /** Contribution of `oddVertices`: one per odd datum. Java's `%` truncates
      toward zero and Dafny's is Euclidean, but both leave a zero remainder
      for exactly the even numbers, so the test `% 2 != 0` agrees. */
  function OddMarks(g: Graph<int>): seq<int>
  {
    seq(|g.data|, u requires 0 <= u < |g.data| => if g.data[u] % 2 != 0 then 1 else 0)
  }

  /** Contribution of `sumEvenVertices`: the datum itself when it is even. */
  function EvenParts(g: Graph<int>): seq<int>
  {
    seq(|g.data|, u requires 0 <= u < |g.data| => if g.data[u] % 2 == 0 then g.data[u] else 0)
  }

  /** Contribution of `countAbove`: one per datum strictly above `threshold`. */
  function AboveMarks(g: Graph<int>, threshold: int): seq<int>
  {
    seq(|g.data|, u requires 0 <= u < |g.data| => if g.data[u] > threshold then 1 else 0)
  }

  /** The shared helper of the three integer folds: vertex `v`'s weight plus
      the tallies of its neighbours, nothing for a vertex already in `V`. */
  function Tally(g: Graph<int>, w: seq<int>, v: nat, V: set<nat>): (r: (int, set<nat>))
    requires Valid(g) && v < |g.data|
    ensures V <= r.1
    decreases Listing(g).succ.Keys - V, 0
  {
    if v in V then (0, V)
    else
      var rest := TallyFrom(g, w, v, 0, V + {v});
      (Weight(w, v) + rest.0, rest.1)
  }

  /** The loop over `neighbors` of vertex `u` from position `i`. */
  function TallyFrom(g: Graph<int>, w: seq<int>, u: nat, i: nat, V: set<nat>): (r: (int, set<nat>))
    requires Valid(g) && u < |g.data| && i <= |g.adj[u]|
    ensures V <= r.1
    decreases Listing(g).succ.Keys - V, |g.adj[u]| - i + 1
  {
    if i == |g.adj[u]| then (0, V)
    else
      var first := Tally(g, w, g.adj[u][i], V);
      var rest := TallyFrom(g, w, u, i + 1, first.1);
      (first.0 + rest.0, rest.1)
  }

  /** `Tally` adds the weights along the engine's visiting order and leaves
      the same visited set. */
  lemma {:induction false} TallyWalks(g: Graph<int>, w: seq<int>, v: nat, V: set<nat>)
    requires Valid(g) && v < |g.data|
    ensures Tally(g, w, v, V).0 == SeqSum(w, Walk(Listing(g), v, V).0)
    ensures Tally(g, w, v, V).1 == Walk(Listing(g), v, V).1
    decreases Listing(g).succ.Keys - V, 0
  {
    if v !in V {
      var o := WalkFrom(Listing(g), v, 0, V + {v}).0;
      TallyFromWalks(g, w, v, 0, V + {v});
      assert ([v] + o)[0] == v && ([v] + o)[1..] == o;
    }
  }

  lemma {:induction false} TallyFromWalks(g: Graph<int>, w: seq<int>, u: nat, i: nat, V: set<nat>)
    requires Valid(g) && u < |g.data| && i <= |g.adj[u]|
    ensures TallyFrom(g, w, u, i, V).0 == SeqSum(w, WalkFrom(Listing(g), u, i, V).0)
    ensures TallyFrom(g, w, u, i, V).1 == WalkFrom(Listing(g), u, i, V).1
    decreases Listing(g).succ.Keys - V, |g.adj[u]| - i + 1
  {
    if i < |g.adj[u]| {
      var d := Listing(g);
      var y := g.adj[u][i];
      var walk := Walk(d, y, V);
      var walkRest := WalkFrom(d, u, i + 1, walk.1);
      TallyWalks(g, w, y, V);
      TallyFromWalks(g, w, u, i + 1, walk.1);
      SeqSumConcat(w, walk.0, walkRest.0);
    }
  }

  /** From a fresh visited set, `Tally` is the weight of the reachable set:
      every reachable vertex counts once, however many paths lead to it. */
  lemma TallyOverReach(g: Graph<int>, w: seq<int>, v: nat)
    requires Valid(g) && v < |g.data|
    ensures Tally(g, w, v, {}).0 == SetSum(w, ReachFrom(g, Some(v)))
  {
    TallyWalks(g, w, v, {});
    SeqSumDistinct(w, Walk(Listing(g), v, {}).0);
    WalkCoversReach(Listing(g), v);
  }

  lemma OddCount(g: Graph<int>, v: nat)
    requires Valid(g) && v < |g.data|
    ensures Tally(g, OddMarks(g), v, {}).0
         == |set u | u in ReachFrom(g, Some(v)) && g.data[u] % 2 != 0|
  {
    var R := ReachFrom(g, Some(v));
    TallyOverReach(g, OddMarks(g), v);
    SetSumCounts(OddMarks(g), R);
    OddMarked(g, R);
  }

  /** The vertices `OddMarks` weighs 1 are those holding an odd datum. */
  lemma OddMarked(g: Graph<int>, S: set<nat>)
    requires forall u :: u in S ==> u < |g.data|
    ensures (set u | u in S && Weight(OddMarks(g), u) == 1) == (set u | u in S && g.data[u] % 2 != 0)
  {
  }

  lemma AboveCount(g: Graph<int>, v: nat, threshold: int)
    requires Valid(g) && v < |g.data|
    ensures Tally(g, AboveMarks(g, threshold), v, {}).0
         == |set u | u in ReachFrom(g, Some(v)) && g.data[u] > threshold|
  {
    var R := ReachFrom(g, Some(v));
    TallyOverReach(g, AboveMarks(g, threshold), v);
    SetSumCounts(AboveMarks(g, threshold), R);
    AboveMarked(g, R, threshold);
  }

  /** The vertices `AboveMarks` weighs 1 are those holding more than
      `threshold`. */
  lemma AboveMarked(g: Graph<int>, S: set<nat>, threshold: int)
    requires forall u :: u in S ==> u < |g.data|
    ensures (set u | u in S && Weight(AboveMarks(g, threshold), u) == 1) == (set u | u in S && g.data[u] > threshold)
  {
  }

  /** `oddVertices`: the number of distinct reachable vertices, the start
      included, whose datum is odd; 0 for a null start. */
  function OddVertices(g: Graph<int>, starting: Option<nat>): (r: int)
    requires Valid(g) && IsRef(g, starting)
    ensures r == |set u | u in ReachFrom(g, starting) && g.data[u] % 2 != 0|
  {
    match starting
    case None => 0
    case Some(v) => OddCount(g, v); Tally(g, OddMarks(g), v, {}).0
  }

  /** `sumEvenVertices`: the sum of the even data over the distinct reachable
      vertices, each vertex once; 0 for a null start. */
  function SumEvenVertices(g: Graph<int>, starting: Option<nat>): (r: int)
    requires Valid(g) && IsRef(g, starting)
    ensures r == SetSum(EvenParts(g), ReachFrom(g, starting))
  {
    match starting
    case None => 0
    case Some(v) => TallyOverReach(g, EvenParts(g), v); Tally(g, EvenParts(g), v, {}).0
  }

  /** `countAbove`: the number of distinct reachable vertices whose datum is
      strictly greater than `threshold`; 0 for a null start. */
  function CountAbove(g: Graph<int>, starting: Option<nat>, threshold: int): (r: int)
    requires Valid(g) && IsRef(g, starting)
    ensures r == |set u | u in ReachFrom(g, starting) && g.data[u] > threshold|
  {
    match starting
    case None => 0
    case Some(v) => AboveCount(g, v, threshold); Tally(g, AboveMarks(g, threshold), v, {}).0
  }

  /** The helper of `collectValues`: the datum of `v`, then the lists of its
      neighbours appended in order. */
  function Collect(g: Graph<int>, v: nat, V: set<nat>): (r: (seq<int>, set<nat>))
    requires Valid(g) && v < |g.data|
    ensures V <= r.1
    decreases Listing(g).succ.Keys - V, 0
  {
    if v in V then ([], V)
    else
      var rest := CollectFrom(g, v, 0, V + {v});
      ([g.data[v]] + rest.0, rest.1)
  }

  function CollectFrom(g: Graph<int>, u: nat, i: nat, V: set<nat>): (r: (seq<int>, set<nat>))
    requires Valid(g) && u < |g.data| && i <= |g.adj[u]|
    ensures V <= r.1
    decreases Listing(g).succ.Keys - V, |g.adj[u]| - i + 1
  {
    if i == |g.adj[u]| then ([], V)
    else
      var first := Collect(g, g.adj[u][i], V);
      var rest := CollectFrom(g, u, i + 1, first.1);
      (first.0 + rest.0, rest.1)
  }

  /** `Collect` lists the data of the engine's visiting order. */
  lemma {:induction false} CollectWalks(g: Graph<int>, v: nat, V: set<nat>)
    requires Valid(g) && v < |g.data|
    ensures Collect(g, v, V) == (Values(g, Walk(Listing(g), v, V).0), Walk(Listing(g), v, V).1)
    decreases Listing(g).succ.Keys - V, 0
  {
    if v !in V {
      var o := WalkFrom(Listing(g), v, 0, V + {v}).0;
      CollectFromWalks(g, v, 0, V + {v});
      assert ([v] + o)[0] == v && ([v] + o)[1..] == o;
    }
  }

  lemma {:induction false} CollectFromWalks(g: Graph<int>, u: nat, i: nat, V: set<nat>)
    requires Valid(g) && u < |g.data| && i <= |g.adj[u]|
    ensures CollectFrom(g, u, i, V)
         == (Values(g, WalkFrom(Listing(g), u, i, V).0), WalkFrom(Listing(g), u, i, V).1)
    decreases Listing(g).succ.Keys - V, |g.adj[u]| - i + 1
  {
    if i < |g.adj[u]| {
      var d := Listing(g);
      var y := g.adj[u][i];
      var walk := Walk(d, y, V);
      var walkRest := WalkFrom(d, u, i + 1, walk.1);
      CollectWalks(g, y, V);
      CollectFromWalks(g, u, i + 1, walk.1);
      ValuesConcat(g, walk.0, walkRest.0);
    }
  }

  /** In the data of a duplicate-free list of vertices, each value occurs as
      often as there are listed vertices holding it. */
  lemma {:induction false} ValuesMultiplicity(g: Graph<int>, o: seq<nat>, x: int)
    requires Distinct(o) && forall k :: 0 <= k < |o| ==> o[k] < |g.data|
    ensures multiset(Values(g, o))[x] == |Holders(g, Elems(o), x)|
  {
    if o == [] {
      assert Holders(g, Elems(o), x) == {};
    } else {
      DistinctTail(o);
      ValuesMultiplicity(g, o[1..], x);
      ValuesHead(g, o, x);
      ElemsCons(o);
      DistinctHead(o);
      HoldersAdd(g, Elems(o[1..]), o[0], x);
    }
  }

  /** The head's datum adds one occurrence of itself to the tail's data. */
  lemma ValuesHead(g: Graph<int>, o: seq<nat>, x: int)
    requires o != [] && forall k :: 0 <= k < |o| ==> o[k] < |g.data|
    ensures multiset(Values(g, o))[x]
         == multiset(Values(g, o[1..]))[x] + (if g.data[o[0]] == x then 1 else 0)
  {
    assert Values(g, o) == [g.data[o[0]]] + Values(g, o[1..]);
    assert multiset(Values(g, o)) == multiset{g.data[o[0]]} + multiset(Values(g, o[1..]));
  }

  /** A fresh vertex adds itself to the holders of `x` exactly when it holds
      `x`. */
  lemma HoldersAdd(g: Graph<int>, S: set<nat>, a: nat, x: int)
    requires a !in S && a < |g.data|
    ensures |Holders(g, {a} + S, x)| == |Holders(g, S, x)| + (if g.data[a] == x then 1 else 0)
  {
    if g.data[a] == x {
      assert Holders(g, {a} + S, x) == Holders(g, S, x) + {a};
    } else {
      assert Holders(g, {a} + S, x) == Holders(g, S, x);
    }
  }

  /** From a fresh visited set, `Collect` lists the data of the reachable
      vertices: one entry per vertex, each value as often as reachable
      vertices hold it, the start's datum first. */
  lemma CollectOverReach(g: Graph<int>, v: nat)
    requires Valid(g) && v < |g.data|
    ensures var l := Collect(g, v, {}).0;
      && |l| == |ReachFrom(g, Some(v))|
      && (forall x :: multiset(l)[x] == |Holders(g, ReachFrom(g, Some(v)), x)|)
      && |l| > 0 && l[0] == g.data[v]
  {
    CollectLength(g, v);
    CollectHead(g, v);
    forall x
      ensures multiset(Collect(g, v, {}).0)[x] == |Holders(g, ReachFrom(g, Some(v)), x)|
    {
      CollectMultiplicity(g, v, x);
    }
  }

  lemma CollectLength(g: Graph<int>, v: nat)
    requires Valid(g) && v < |g.data|
    ensures |Collect(g, v, {}).0| == |ReachFrom(g, Some(v))|
  {
    CollectWalks(g, v, {});
    var o := Walk(Listing(g), v, {}).0;
    WalkCoversReach(Listing(g), v);
    DistinctCard(o);
  }

  lemma CollectHead(g: Graph<int>, v: nat)
    requires Valid(g) && v < |g.data|
    ensures |Collect(g, v, {}).0| > 0 && Collect(g, v, {}).0[0] == g.data[v]
  {
    var none: set<nat> := {};
    var rest := CollectFrom(g, v, 0, none + {v});
    assert Collect(g, v, none).0 == [g.data[v]] + rest.0;
  }

  lemma CollectMultiplicity(g: Graph<int>, v: nat, x: int)
    requires Valid(g) && v < |g.data|
    ensures multiset(Collect(g, v, {}).0)[x] == |Holders(g, ReachFrom(g, Some(v)), x)|
  {
    CollectWalks(g, v, {});
    var o := Walk(Listing(g), v, {}).0;
    WalkCoversReach(Listing(g), v);
    ValuesMultiplicity(g, o, x);
  }

  /** `collectValues`: the data of the distinct reachable vertices, each
      vertex once and equal data on distinct vertices kept as duplicates,
      starting with the start's datum (pre-order); empty for a null start. */
  function CollectValues(g: Graph<int>, starting: Option<nat>): (r: seq<int>)
    requires Valid(g) && IsRef(g, starting)
    ensures |r| == |ReachFrom(g, starting)|
    ensures forall x :: multiset(r)[x] == |Holders(g, ReachFrom(g, starting), x)|
    ensures starting.Some? ==> |r| > 0 && r[0] == g.data[starting.value]
  {
    match starting
    case None => []
    case Some(v) => CollectOverReach(g, v); Collect(g, v, {}).0
  }

  /** The helper of `sortedReachable(Vertex)`: like `Collect`, but every
      frame sorts its list before returning it. */
  function SortedCollect(g: Graph<int>, v: nat, V: set<nat>): (r: (seq<int>, set<nat>))
    requires Valid(g) && v < |g.data|
    ensures V <= r.1
    ensures Sorted(r.0)
    decreases Listing(g).succ.Keys - V, 0
  {
    if v in V then ([], V)
    else
      var rest := SortedCollectFrom(g, v, 0, V + {v});
      (Sort([g.data[v]] + rest.0), rest.1)
  }

  function SortedCollectFrom(g: Graph<int>, u: nat, i: nat, V: set<nat>): (r: (seq<int>, set<nat>))
    requires Valid(g) && u < |g.data| && i <= |g.adj[u]|
    ensures V <= r.1
    decreases Listing(g).succ.Keys - V, |g.adj[u]| - i + 1
  {
    if i == |g.adj[u]| then ([], V)
    else
      var first := SortedCollect(g, g.adj[u][i], V);
      var rest := SortedCollectFrom(g, u, i + 1, first.1);
      (first.0 + rest.0, rest.1)
  }

  /** Sorting at every frame changes only the order: `SortedCollect` holds
      the same data as `Collect` and leaves the same visited set. */
  lemma {:induction false} SortedCollectPermutes(g: Graph<int>, v: nat, V: set<nat>)
    requires Valid(g) && v < |g.data|
    ensures multiset(SortedCollect(g, v, V).0) == multiset(Collect(g, v, V).0)
    ensures SortedCollect(g, v, V).1 == Collect(g, v, V).1
    decreases Listing(g).succ.Keys - V, 0
  {
    if v !in V {
      SortedCollectFromPermutes(g, v, 0, V + {v});
      var l := SortedCollectFrom(g, v, 0, V + {v}).0;
      var c := CollectFrom(g, v, 0, V + {v}).0;
      assert multiset([g.data[v]] + l) == multiset([g.data[v]] + c);
    }
  }

  lemma {:induction false} SortedCollectFromPermutes(g: Graph<int>, u: nat, i: nat, V: set<nat>)
    requires Valid(g) && u < |g.data| && i <= |g.adj[u]|
    ensures multiset(SortedCollectFrom(g, u, i, V).0) == multiset(CollectFrom(g, u, i, V).0)
    ensures SortedCollectFrom(g, u, i, V).1 == CollectFrom(g, u, i, V).1
    decreases Listing(g).succ.Keys - V, |g.adj[u]| - i + 1
  {
    if i < |g.adj[u]| {
      var y := g.adj[u][i];
      var first := Collect(g, y, V);
      SortedCollectPermutes(g, y, V);
      SortedCollectFromPermutes(g, u, i + 1, first.1);
      var l1 := SortedCollect(g, y, V).0;
      var l2 := SortedCollectFrom(g, u, i + 1, first.1).0;
      var c2 := CollectFrom(g, u, i + 1, first.1).0;
      assert multiset(l1 + l2) == multiset(l1) + multiset(l2);
      assert multiset(first.0 + c2) == multiset(first.0) + multiset(c2);
    }
  }

  /** `sortedReachable(Vertex)`: the reachable data in ascending order with
      duplicates kept, i.e. exactly the sorted `collectValues` of the same
      start; empty for a null start. */
  function SortedReachable(g: Graph<int>, starting: Option<nat>): (r: seq<int>)
    requires Valid(g) && IsRef(g, starting)
    ensures Sorted(r)
    ensures multiset(r) == multiset(CollectValues(g, starting))
    ensures r == Sort(CollectValues(g, starting))
  {
    match starting
    case None => []
    case Some(v) =>
      var r := SortedCollect(g, v, {}).0;
      SortedCollectPermutes(g, v, {});
      SortedUnique(r, Sort(CollectValues(g, starting)));
      r
  }
}

=== FILE: vertex_graph.dfy ===
/** The vertex graph: `Vertex<T>` objects holding `data` and an ordered list
    of `neighbors`, compared by reference. The model keeps every vertex in an
    arena: vertex `u` is the index `u`, holds `data[u]` and has the neighbour
    list `adj[u]`. Two vertices holding equal data are still different
    indices, which is what reference identity means here. A reference that
    may be null (a starting vertex) is an `Option<nat>`. The professional
    network is the same shape with a company name as the data. */
module VertexGraph {
  import opened Seqs
  import opened Reachability
  import opened Traversal

  datatype Option<T> = None | Some(value: T)

  datatype Graph<T> = Graph(data: seq<T>, adj: seq<seq<nat>>)

  /** Every vertex has a neighbour list and every neighbour is a vertex. */
  predicate Valid<T>(g: Graph<T>)
  {
    && |g.adj| == |g.data|
    && forall u, j :: 0 <= u < |g.adj| && 0 <= j < |g.adj[u]| ==> g.adj[u][j] < |g.data|
  }

  /** `r` is null or one of the graph's vertices. */
  predicate IsRef<T>(g: Graph<T>, r: Option<nat>)
  {
    r.Some? ==> r.value < |g.data|
  }

  /** The graph as the traversal engine sees it. */
  function Listing<T>(g: Graph<T>): (d: Digraph<nat>)
    requires |g.adj| == |g.data|
    ensures forall u: nat :: u in d.succ <==> u < |g.data|
    ensures forall u :: u in d.succ ==> d.succ[u] == g.adj[u]
  {
    Digraph(map u: nat | u < |g.data| :: g.adj[u])
  }

  /** The neighbour relation, forgetting list order. */
  ghost function Edges<T>(g: Graph<T>): (e: map<nat, set<nat>>)
    requires |g.adj| == |g.data|
    ensures forall u: nat :: u in e <==> u < |g.data|
    ensures forall u :: u in e ==> e[u] == Elems(g.adj[u])
  {
    Adjacency(Listing(g))
  }

  /** The vertices reachable from `r`, the start included; none from null. */
  ghost function ReachFrom<T>(g: Graph<T>, r: Option<nat>): (s: set<nat>)
    requires |g.adj| == |g.data|
    ensures forall u :: u in s ==> u < |g.data|
  {
    match r
    case None => {}
    case Some(v) => Reach(Edges(g), v)
  }

  /** Every entry of a neighbour list is an edge. */
  lemma ListedEdge<T>(g: Graph<T>, u: nat, j: nat)
    requires Valid(g) && u < |g.data| && j < |g.adj[u]|
    ensures Edge(Edges(g), u, g.adj[u][j])
  {
    var d := Listing(g);
    assert d.succ[u] == g.adj[u];
    assert g.adj[u][j] in Elems(d.succ[u]);
  }

  /** A set of vertices that holds every entry of its own neighbour lists is
      closed under edges. */
  lemma ListsClosed<T>(g: Graph<T>, S: set<nat>)
    requires |g.adj| == |g.data|
    requires forall u, j :: u in S && u < |g.adj| && 0 <= j < |g.adj[u]| ==> g.adj[u][j] in S
    ensures ClosedIn(Edges(g), S, S)
  {
    forall u, y | u in S && Edge(Edges(g), u, y)
      ensures y in S
    {
      assert y in Elems(g.adj[u]);
      var j :| 0 <= j < |g.adj[u]| && g.adj[u][j] == y;
    }
  }

  /** The vertices of `S` holding `x`. */
  ghost function Holders<T>(g: Graph<T>, S: set<nat>, x: T): set<nat>
  {
    set u | u in S && u < |g.data| && g.data[u] == x
  }

  /** The data held by the vertices of `o`, in order. */
  function Values<T>(g: Graph<T>, o: seq<nat>): (r: seq<T>)
    requires forall k :: 0 <= k < |o| ==> o[k] < |g.data|
    ensures |r| == |o|
  {
    if o == [] then [] else [g.data[o[0]]] + Values(g, o[1..])
  }

  lemma {:induction false} ValuesConcat<T>(g: Graph<T>, a: seq<nat>, b: seq<nat>)
    requires forall k :: 0 <= k < |a| ==> a[k] < |g.data|
    requires forall k :: 0 <= k < |b| ==> b[k] < |g.data|
    ensures Values(g, a + b) == Values(g, a) + Values(g, b)
  {
    if a == [] {
      assert a + b == b;
    } else {
      assert (a + b)[0] == a[0];
      assert (a + b)[1..] == a[1..] + b;
      ValuesConcat(g, a[1..], b);
    }
  }
}

=== FILE: vertex_search.dfy ===
/** The existence searches of the vertex graph: `containsValue`, `twoWay`
    and `hasExtendedConnectionAtCompany`. The professional network is a
    `Graph<string>` whose datum at a vertex is that professional's company
    (`getCompany()`) and whose neighbour lists are `getConnections()`. */
module VertexSearch {
  import opened Seqs
  import opened Reachability
  import opened Traversal
  import opened VertexGraph

  /** Some vertex of `S` holds `target`. */
  ghost predicate Holds<T>(g: Graph<T>, S: set<nat>, target: T)
  {
    Holders(g, S, target) != {}
  }

  /** `Holds` by a witness: a vertex of `S` that holds `target`. */
  lemma HoldsWitness<T>(g: Graph<T>)
    ensures forall S, target :: Holds(g, S, target) <==> exists u :: u in S && u < |g.data| && g.data[u] == target
  {
    forall S, target
      ensures Holds(g, S, target) <==> exists u :: u in S && u < |g.data| && g.data[u] == target
    {
      if Holds(g, S, target) {
        var u :| u in Holders(g, S, target);
      }
      if exists u :: u in S && u < |g.data| && g.data[u] == target {
        var u :| u in S && u < |g.data| && g.data[u] == target;
        assert u in Holders(g, S, target);
      }
    }
  }

  /** The helper of `containsValue`, as written: after marking `v` and
      comparing its datum, the loop over the neighbours returns whatever the
      FIRST neighbour's search returns, so the later neighbours are never
      searched. */
  function ContainsFrom(g: Graph<int>, v: nat, target: int, V: set<nat>): bool
    requires Valid(g) && v < |g.data|
    decreases Listing(g).succ.Keys - V
  {
    if v in V then false
    else if g.data[v] == target then true
    else if |g.adj[v]| == 0 then false
    else ContainsFrom(g, g.adj[v][0], target, V + {v})
  }

  /** Whatever `ContainsFrom` finds is reachable. */
  lemma {:induction false} ContainsFromSound(g: Graph<int>, v: nat, target: int, V: set<nat>)
    requires Valid(g) && v < |g.data|
    ensures ContainsFrom(g, v, target, V) ==> Holds(g, ReachFrom(g, Some(v)), target)
    decreases Listing(g).succ.Keys - V
  {
    HoldsWitness(g);
    if v !in V {
      if g.data[v] == target {
        ReachSelf(Edges(g), v);
      } else if |g.adj[v]| > 0 {
        var y := g.adj[v][0];
        ContainsFromSound(g, y, target, V + {v});
        if ContainsFrom(g, y, target, V + {v}) {
          var u :| u in ReachFrom(g, Some(y)) && u < |g.data| && g.data[u] == target;
          ListedEdge(g, v, 0);
          ReachStep<nat>(Edges(g), v, y, u);
        }
      }
    }
  }

  /** `containsValue`: false for a null start, true when the start itself
      holds `target`, and when true some reachable vertex holds `target`.
      A false answer proves nothing: only the first-neighbour chain is
      searched. */
  function ContainsValue(g: Graph<int>, starting: Option<nat>, target: int): (r: bool)
    requires Valid(g) && IsRef(g, starting)
    ensures starting.None? ==> !r
    ensures starting.Some? && g.data[starting.value] == target ==> r
    ensures r ==> Holds(g, ReachFrom(g, starting), target)
  {
    match starting
    case None => false
    case Some(v) => ContainsFromSound(g, v, target, {}); ContainsFrom(g, v, target, {})
  }

  /** A search that marks `v`, succeeds if `v` holds `target`, and otherwise
      tries every neighbour in turn until one succeeds: the helper of
      `hasExtendedConnectionAtCompany`. */
  function Seek<T(==)>(g: Graph<T>, v: nat, target: T, V: set<nat>): (r: (bool, set<nat>))
    requires Valid(g) && v < |g.data|
    ensures V <= r.1
    decreases Listing(g).succ.Keys - V, 0
  {
    if v in V then (false, V)
    else if g.data[v] == target then (true, V + {v})
    else SeekFrom(g, v, 0, target, V + {v})
  }

  function SeekFrom<T(==)>(g: Graph<T>, u: nat, i: nat, target: T, V: set<nat>): (r: (bool, set<nat>))
    requires Valid(g) && u < |g.data| && i <= |g.adj[u]|
    ensures V <= r.1
    decreases Listing(g).succ.Keys - V, |g.adj[u]| - i + 1
  {
    if i == |g.adj[u]| then (false, V)
    else
      var first := Seek(g, g.adj[u][i], target, V);
      if first.0 then (true, first.1) else SeekFrom(g, u, i + 1, target, first.1)
  }

  /** `Seek` succeeds iff the engine's walk with the same visited set meets
      `target`; when it fails it has visited what that walk visits, so a
      shared visited set hides nothing from the later neighbours. */
  lemma {:induction false} SeekWalks<T>(g: Graph<T>, v: nat, target: T, V: set<nat>)
    requires Valid(g) && v < |g.data|
    ensures Seek(g, v, target, V).0 == Holds(g, Elems(Walk(Listing(g), v, V).0), target)
    ensures !Seek(g, v, target, V).0 ==> Seek(g, v, target, V).1 == Walk(Listing(g), v, V).1
    decreases Listing(g).succ.Keys - V, 0
  {
    if v !in V {
      var o := WalkFrom(Listing(g), v, 0, V + {v}).0;
      ElemsConcat([v], o);
      HoldsWitness(g);
      if g.data[v] != target {
        SeekFromWalks(g, v, 0, target, V + {v});
      }
    }
  }

  lemma {:induction false} SeekFromWalks<T>(g: Graph<T>, u: nat, i: nat, target: T, V: set<nat>)
    requires Valid(g) && u < |g.data| && i <= |g.adj[u]|
    ensures SeekFrom(g, u, i, target, V).0 == Holds(g, Elems(WalkFrom(Listing(g), u, i, V).0), target)
    ensures !SeekFrom(g, u, i, target, V).0 ==> SeekFrom(g, u, i, target, V).1 == WalkFrom(Listing(g), u, i, V).1
    decreases Listing(g).succ.Keys - V, |g.adj[u]| - i + 1
  {
    if i < |g.adj[u]| {
      var y := g.adj[u][i];
      var d := Listing(g);
      SeekWalks(g, y, target, V);
      var walk := Walk(d, y, V);
      var walkRest := WalkFrom(d, u, i + 1, walk.1);
      assert WalkFrom(d, u, i, V).0 == walk.0 + walkRest.0;
      ElemsConcat(walk.0, walkRest.0);
      if !Seek(g, y, target, V).0 {
        SeekFromWalks(g, u, i + 1, target, walk.1);
      }
    }
  }

  /** A full search from a possibly-null start: true iff some vertex
      reachable from it, the start included, holds `target`. */
  function Occurs<T(==)>(g: Graph<T>, starting: Option<nat>, target: T): (r: bool)
    requires Valid(g) && IsRef(g, starting)
    ensures r <==> Holds(g, ReachFrom(g, starting), target)
  {
    match starting
    case None => false
    case Some(v) =>
      SeekWalks(g, v, target, {});
      WalkCoversReach(Listing(g), v);
      Seek(g, v, target, {}).0
  }

  /** `hasExtendedConnectionAtCompany`: true iff the person or anyone reachable
      through connections works at `companyName`; false for a null person.
      Java compares the company strings with `==`, which is reference
      equality; the model compares their contents. */
  function HasExtendedConnectionAtCompany(g: Graph<string>, person: Option<nat>, companyName: string): (r: bool)
    requires Valid(g) && IsRef(g, person)
    ensures person.None? ==> !r
    ensures r <==> exists u :: u in ReachFrom(g, person) && g.data[u] == companyName
  {
    HoldsWitness(g);
    Occurs(g, person, companyName)
  }

  /** `containsValue` as its documentation intends it: every neighbour is
      searched, so the answer is complete as well as sound. */
  function ContainsValueIntended(g: Graph<int>, starting: Option<nat>, target: int): (r: bool)
    requires Valid(g) && IsRef(g, starting)
    ensures r <==> exists u :: u in ReachFrom(g, starting) && g.data[u] == target
  {
    HoldsWitness(g);
    Occurs(g, starting, target)
  }

  /** The helper of `twoWay`: is `target` reachable from `v` without passing
      through `V`? The identity test comes before `v` is marked. */
  function Find<T>(g: Graph<T>, v: nat, V: set<nat>, target: Option<nat>): (r: (bool, set<nat>))
    requires Valid(g) && v < |g.data|
    ensures V <= r.1
    decreases Listing(g).succ.Keys - V, 0
  {
    if v in V then (false, V)
    else if Some(v) == target then (true, V)
    else FindFrom(g, v, 0, V + {v}, target)
  }

  function FindFrom<T>(g: Graph<T>, u: nat, i: nat, V: set<nat>, target: Option<nat>): (r: (bool, set<nat>))
    requires Valid(g) && u < |g.data| && i <= |g.adj[u]|
    ensures V <= r.1
    decreases Listing(g).succ.Keys - V, |g.adj[u]| - i + 1
  {
    if i == |g.adj[u]| then (false, V)
    else
      var first := Find(g, g.adj[u][i], V, target);
      if first.0 then (true, first.1) else FindFrom(g, u, i + 1, first.1, target)
  }

  lemma {:induction false} FindWalks<T>(g: Graph<T>, v: nat, V: set<nat>, target: Option<nat>)
    requires Valid(g) && v < |g.data|
    ensures Find(g, v, V, target).0 == (target.Some? && target.value in Elems(Walk(Listing(g), v, V).0))
    ensures !Find(g, v, V, target).0 ==> Find(g, v, V, target).1 == Walk(Listing(g), v, V).1
    decreases Listing(g).succ.Keys - V, 0
  {
    if v !in V {
      var o := WalkFrom(Listing(g), v, 0, V + {v}).0;
      ElemsConcat([v], o);
      if Some(v) != target {
        FindFromWalks(g, v, 0, V + {v}, target);
      }
    }
  }

  lemma {:induction false} FindFromWalks<T>(g: Graph<T>, u: nat, i: nat, V: set<nat>, target: Option<nat>)
    requires Valid(g) && u < |g.data| && i <= |g.adj[u]|
    ensures FindFrom(g, u, i, V, target).0
         == (target.Some? && target.value in Elems(WalkFrom(Listing(g), u, i, V).0))
    ensures !FindFrom(g, u, i, V, target).0 ==> FindFrom(g, u, i, V, target).1 == WalkFrom(Listing(g), u, i, V).1
    decreases Listing(g).succ.Keys - V, |g.adj[u]| - i + 1
  {
    if i < |g.adj[u]| {
      var y := g.adj[u][i];
      var d := Listing(g);
      FindWalks(g, y, V, target);
      var walk := Walk(d, y, V);
      var walkRest := WalkFrom(d, u, i + 1, walk.1);
      assert WalkFrom(d, u, i, V).0 == walk.0 + walkRest.0;
      ElemsConcat(walk.0, walkRest.0);
      if !Find(g, y, V, target).0 {
        FindFromWalks(g, u, i + 1, walk.1, target);
      }
    }
  }

  /** One direction of `twoWay`: the helper called with a fresh visited set.
      True iff both references are non-null and `to` is reachable from
      `from`. */
  function Search<T>(g: Graph<T>, from: Option<nat>, to: Option<nat>): (r: bool)
    requires Valid(g) && IsRef(g, from) && IsRef(g, to)
    ensures r <==> from.Some? && to.Some? && to.value in ReachFrom(g, from)
  {
    match from
    case None => false
    case Some(v) =>
      FindWalks(g, v, {}, to);
      WalkCoversReach(Listing(g), v);
      Find(g, v, {}, to).0
  }

  /** `twoWay`: each vertex reachable from the other, each direction searched
      with its own visited set; false if either is null, true for the same
      non-null vertex twice. */
  function TwoWay<T>(g: Graph<T>, v1: Option<nat>, v2: Option<nat>): (r: bool)
    requires Valid(g) && IsRef(g, v1) && IsRef(g, v2)
    ensures r <==> v1.Some? && v2.Some? && v2.value in ReachFrom(g, v1) && v1.value in ReachFrom(g, v2)
    ensures v1.Some? && v1 == v2 ==> r
  {
    var r := Search(g, v1, v2) && Search(g, v2, v1);
    assert v1.Some? && v1 == v2 ==> r by {
      if v1.Some? && v1 == v2 {
        ReachSelf(Edges(g), v1.value);
      }
    }
    r
  }

  /** The two arguments of `twoWay` can be swapped. */
  lemma TwoWaySymmetric<T>(g: Graph<T>, v1: Option<nat>, v2: Option<nat>)
    requires Valid(g) && IsRef(g, v1) && IsRef(g, v2)
    ensures TwoWay(g, v1, v2) == TwoWay(g, v2, v1)
  {
  }
}
